=== FILE: README.md ===
# NBA-stats gateway in Dafny

NBA-stats is a small Go program in two front ends. Both sit over the same
third-party basketball API (balldontlie):

- a terminal menu (`main.go`), which searches teams by name, searches players
  by name and looks a player up by id, printing one line per result;
- an HTTP server (`backend/main.go`), which serves the two player searches as
  JSON under `/players` and `/players/<id>`.

This project models the decisions both front ends make around the upstream
call:

- the URL each operation asks for;
- the status gate in `fetchAPI`, where only status 200 is decoded;
- the case-insensitive team filter and how its matches are printed;
- the empty and non-empty player results and their line format;
- the menu's `switch` and its loop;
- the two HTTP handlers' validation, status codes and bodies.

The upstream service is a parameter. Each model of an operation takes what
the API answered: a transport failure, or a reply with a status code, a status
text and a body that either decoded or did not. The HTTP handlers take a
function from URL to such an answer. They return the response together with
the list of URLs they fetched, so "makes no upstream call" is a statement
about that list.

Modules, one per file:

- `Types` (`types.dfy`): the source's records `Team`, `Player`, the three JSON
  envelopes, and `Result`.
- `Text` (`text.dfy`): ASCII `strings.ToLower`, `strings.Contains`,
  `strings.TrimPrefix`, and `%d` with a reader for it.
- `Seqs` (`seqs.dfy`): an order-keeping filter with its subsequence, soundness
  and completeness lemmas.
- `Fmt` (`fmt.dfy`): `fmt.Sprintf` for formats made of text, `%d` and `%s`.
  This includes Go's `%!d(MISSING)`-style text for a missing or mistyped
  argument.
- `QueryEscape` (`query_escape.dfy`): `url.QueryEscape`. It encodes the
  characters as UTF-8 and keeps `A-Z a-z 0-9 - _ . ~`. A space becomes `+`.
  Every other byte becomes `%XX` in upper-case hex.
- `Upstream` (`upstream.dfy`): the upstream endpoints and the status gate of
  `fetchAPI`. The gate is the same in both front ends.
- `Cli` (`cli.dfy`): `searchTeam`, `searchPlayer` and `searchPlayerId`. A
  `log.Fatalf` is the outcome `Aborted`.
- `Menu` (`menu.dfy`): the CLI's `main` loop over a sequence of input lines.
- `Server` (`server.dfy`): `playerNameHandler` and `playerIdHandler`, with
  `http.Error`'s plain-text response and `url.Values.Get`.

Two behaviours of the code worth noting:

- A failed fetch in the terminal menu ends the process through `log.Fatalf`.
  It does not print an error and carry on.
- An empty team name is not rejected. It matches every team
  (`Cli.EmptyTermKeepsAll`).

## Model

| member | source | states |
|---|---|---|
| Fmt.Sprintf | main.go:102 | defined by its body (literal text, `%d`, `%s`); what it prints for the source's two formats is stated by `Cli.TeamLineLayout` and `Cli.PlayerLineLayout` |
| Text.Lower | main.go:101 | lower-casing keeps the length and maps each character through ASCII lower-casing, so no upper-case letter is left |
| Text.CaseVariantsLowerEqual | main.go:101 | two strings that differ only in the case of their ASCII letters lower-case to the same string |
| Text.Contains | main.go:101 | substring search answers true exactly when the needle occurs at some position of the haystack |
| Text.TrimPrefix | backend/main.go:81 | when the string starts with the prefix, prefix plus result gives the string back; otherwise the string is unchanged |
| Text.TrimPrefixEmpty | backend/main.go:107-108 | trimming a non-empty prefix leaves nothing exactly when the string is empty or is the prefix itself |
| Text.FormatInt | main.go:102 | `%d` is never empty and starts with a minus sign exactly for negative numbers |
| Text.ReadFormatInt | main.go:102 | reading a decimal number back from a `%d` rendering followed by a non-digit returns the number and the rest unchanged |
| Text.FormatIntInjective | main.go:129 | different ids print differently under `%d` |
| QueryEscape.Utf8 | main.go:114 | a character encodes to one to four bytes; ASCII to itself; anything else to at least two bytes, all at least 0x80 |
| QueryEscape.EscapeChar | main.go:114 | an unreserved character is kept; a space becomes `+`; anything else becomes a `%`-escape of at least three characters; every output character is URL-safe |
| QueryEscape.Escape | main.go:114 | escaping never shortens the string and its output consists of URL-safe characters only |
| QueryEscape.EscapeIdentityIff | main.go:135 | escaping leaves a string unchanged exactly when all its characters are unreserved |
| Upstream.SearchUrl | main.go:114 | the name-search URL is the search endpoint followed by URL-safe characters only |
| Upstream.Fetch | main.go:81-85 | a fetch succeeds exactly on status 200 with a decodable body and then yields that body; a transport error passes through; any other status gives "API request failed with status: " and the status text; an undecodable body gives the decode error |
| Upstream.NonOkNeverDecodes | main.go:81-83 | on a status other than 200 the outcome is an error that does not depend on the body at all |
| Upstream.StatusErrorNamesStatus | backend/main.go:72-74 | the server's status error contains the upstream status text |
| Seqs.FilterPositions | main.go:100-105 | the filter's output is the input at strictly increasing positions, and a position is taken exactly when its element is kept |
| Seqs.FilterEmpty | main.go:107-109 | the filter's output is empty exactly when no element is kept |
| Cli.PlayerIdUrl | main.go:135 | the id-lookup URL is the player endpoint followed by URL-safe characters only |
| Cli.TeamSearchIsMatchingSubsequence | main.go:99-105 | the matching teams are the upstream list at increasing positions, and a position is included exactly when that team's lower-cased name contains the lower-cased term |
| Cli.TeamSearchSoundComplete | main.go:100-101 | every team in the result is an upstream team that matches, and every upstream team that matches is in the result |
| Cli.EmptyTermKeepsAll | main.go:101 | an empty team name matches every team, in upstream order |
| Cli.MatchIgnoresCase | main.go:101 | changing the ASCII case of the team name or of the term does not change whether a team matches |
| Cli.FilterIgnoresTermCase | main.go:101 | changing the case of the term leaves the list of matches unchanged |
| Cli.FilterIgnoresNameCase | main.go:100-101 | changing the case of the upstream team names matches the same positions and the same number of teams |
| Cli.TeamLineLayout | main.go:102 | a team line is "Found Team: ", the id, ": ", the name; reading the number after the label gives the id back |
| Cli.TeamLines | main.go:100-104 | one line per matching team, in order, each that team's line |
| Cli.SearchTeam | main.go:89-110 | defined by its body; its contract is stated by `Cli.SearchTeamOutcome` |
| Cli.SearchTeamOutcome | main.go:89-110 | the team search aborts exactly when the fetch fails, with "Error fetching teams: " and the cause; otherwise "Team not found." is printed exactly when no team matched, and then it is the only line; when some team matched the lines are exactly the matches' lines, in upstream order |
| Cli.ScanTeams | main.go:99-109 | the loop with its `found` flag prints the lines of the filtered teams, and `found` holds exactly when some upstream team matches |
| Cli.PlayerLineLayout | main.go:129 | a player line holds id, first name, last name, team name, position, height and jersey, in that order, between the format's fixed texts |
| Cli.PlayerLineReadsId | main.go:129 | reading the number after "ID: " in a player line gives the player's id back |
| Cli.SearchPlayer | main.go:113-131 | the player search aborts exactly when the fetch fails, with "Error fetching players: " and the cause; "No players found." is printed exactly when the list is empty, and then alone; otherwise one line per player, in upstream order |
| Cli.PlayerLineNotNoPlayers | main.go:123-130 | no player line can be mistaken for "No players found." |
| Cli.SearchPlayerId | main.go:134-146 | the id lookup aborts exactly when the fetch fails; otherwise it prints the one player's line |
| Menu.Dispatch | main.go:162-187 | "1", "2", "3" and "4" select team search, player search, id lookup and exit respectively, each by exactly that string; everything else is invalid |
| Menu.Scan | main.go:159-160 | a read yields the next input line, or the empty string once the input is exhausted |
| Menu.OneRound | main.go:158-187 | one pass of the loop: an invalid choice prints "Invalid choice, try again." and continues; "4" prints "Exiting..." and stops; a stop is an exit or a fatal fetch error, and an exit happens exactly on choice "4" |
| Menu.OneRoundShape | main.go:158-187 | a round leaves a suffix of its input unread and consumes at least one line while there is one and never more than two; with no input left it reads the empty choice and prints the complaint; it stops only through "4" or a fatal error |
| Menu.Run | main.go:151-188 | defined by its body (the loop as written, for a bound on the rounds); described by `Menu.InvalidChoiceContinues`, `Menu.ChoiceFourExits`, `Menu.ExitNeedsFour` and `Menu.EndOfInputLoopsForever` |
| Menu.InvalidChoiceContinues | main.go:185-186 | an invalid choice prints the complaint and the loop goes on with the following line |
| Menu.ChoiceOneSearchesTeams | main.go:163-167 | "1" reads the team name from the next line and runs the team search on the teams URL; printed lines are followed by the rest of the session, and a failed fetch ends the session as fatal with its message and nothing printed |
| Menu.ChoiceTwoSearchesPlayers | main.go:169-173 | "2" reads the player name from the next line and runs the player search on the escaped search URL; it continues after printed lines and ends fatally on a failed fetch |
| Menu.ChoiceThreeLooksUpPlayer | main.go:175-179 | "3" reads the id from the next line and looks the player up on the escaped id URL; it continues after the printed line and ends fatally on a failed fetch |
| Menu.ChoiceFourExits | main.go:181-183 | choice "4" prints "Exiting..." and ends the session at once |
| Menu.ExitNeedsFour | main.go:151-188 | a session can end through the exit branch only if some input line is "4" |
| Menu.EndOfInputLoopsForever | main.go:151-188 | with no input left, the loop as written never stops: each round prints "Invalid choice, try again." |
| Menu.RunToEofStops | main.go:151-188 | the loop corrected to stop at the end of input stops within one more round than it has input lines |
| Menu.RunToEofAgrees | main.go:151-188 | for a session that ends through "4" or a fatal error, the corrected loop prints the same and leaves the same input |
| Server.HttpError | backend/main.go:83 | an error response carries the given status, the plain-text content type and the message followed by a newline |
| Server.QueryGet | backend/main.go:86 | a query parameter that is absent reads as the empty string; otherwise its first value is used |
| Server.Answer | backend/main.go:95-102 | a failed fetch gives 500 with "Error fetching players: " and the cause; a successful one gives 200 with the JSON content type and the decoded envelope |
| Server.PlayerNameHandler | backend/main.go:80-103 | an empty trimmed path gives 400 "Missing player ID"; otherwise an empty `search` gives 400 "Missing search query"; both fetch nothing; otherwise exactly the escaped search URL is fetched and its outcome answered |
| Server.PlayerIdHandler | backend/main.go:106-124 | an empty id gives 400 "Missing player ID" and fetches nothing; otherwise exactly the id URL is fetched and its outcome answered |
| Server.NameHandlerFetchesOnlyValid | backend/main.go:81-92 | the search handler fetches nothing exactly when the request is invalid; then the response is 400 whatever the upstream would say; a valid request fetches exactly the search URL |
| Server.IdHandlerFetchesOnlyValid | backend/main.go:107-113 | the id handler fetches nothing exactly when the id is empty; then the response is 400 whatever the upstream would say |
| Server.NameHandlerChecksIdFirst | backend/main.go:81-90 | a request missing both id and search term reports "Missing player ID" |
| Server.NameHandlerIdCheckPaths | backend/main.go:81-85 | the search handler reports a missing id exactly for the paths "" and "/players/" |
| Server.NameRouteNeverMissesId | backend/main.go:81-85 | the path "/players", under which the server registers this handler, never gets the missing-id answer |
| Server.NameHandlerStatus | backend/main.go:80-103 | 400 exactly when nothing was fetched; 200 exactly when the fetch succeeded, with the envelope as JSON; 500 exactly when it failed, with the prefixed cause |
| Server.IdHandlerStatus | backend/main.go:106-124 | the same three-way status split for the id handler, with the single-player envelope |
| Server.NameHandlerForwardsUpstream | backend/main.go:92-102 | for a 200 upstream reply that decodes, the decoded envelope is sent back to the client re-encoded as JSON with status 200; any other upstream status becomes 500 naming that status |
| Server.IdHandlerForwardsUpstream | backend/main.go:113-123 | the same for the id handler, which fetches the raw id URL and sends back the decoded single-player envelope |
| Server.IdUrl | backend/main.go:113 | defined by its body (the id appended unescaped); described by `Server.IdHandlerForwardsUpstream` and `Server.IdUrlMatchesCliIffUnreserved` |
| Server.IdUrlMatchesCliIffUnreserved | backend/main.go:113 | the server's raw id URL equals the terminal tool's escaped one exactly when the id has only unreserved characters |

## Left out

- `loadAPIKey`, `godotenv` and the environment variable (main.go:51-61, backend/main.go:47-54) are environment I/O and process exit. The key is not part of the model.
- HTTP transport: the request, the `Authorization` header, `client.Do` and closing the body. These are replaced by the upstream parameter.
- JSON decoding and encoding. A decoded envelope is an upstream input. The handlers' JSON body is that envelope, tagged with its shape. Decoding keeps only the fields of the source's structs, and a missing or null field becomes its zero value. So the JSON the client receives is a re-encoding of that projection, not the upstream's JSON: other fields, such as a list's `meta`, are dropped.
- `ServeMux` routing, CORS, `ListenAndServe` and the startup message (backend/main.go:126-141). These are server bootstrap and concurrency. Routing appears only in `Server.NameRouteNeverMissesId`, which shows that the one path routed to the name handler never reaches its missing-id answer.
- The parsing of the request URL into path and query pairs. A request is given already split.
- The HTTP method is not looked at by the handlers and is not modelled.
- `http.Error`'s `X-Content-Type-Options: nosniff` header is not modelled.
- The menu text and the prompts printed before each read are not modelled. The output lines are the searches' lines plus the loop's own "Invalid choice, try again." and "Exiting...".
- The text `log.Fatalf` writes to standard error is kept as the `Fatal` message, but its timestamp is not.
- Text.Lower: lower-cases ASCII letters only. Go's `strings.ToLower` also folds non-ASCII letters, so team names with such letters may match differently.
- Fmt.Sprintf: covers the `%d` and `%s` verbs the source uses and missing or mistyped arguments. It does not cover Go's `%!(EXTRA …)` text for surplus arguments, which no call in the source supplies.
- Menu.Run: counts rounds with a bound. The program's unbounded loop is described by what holds for every bound.
- Strings are modelled as sequences of Unicode characters. Go strings are byte strings, so an input line that is not valid UTF-8 is outside the model: Go's `url.QueryEscape` escapes such bytes one at a time, and its `strings.ToLower` replaces them with U+FFFD.
- The menu loop's upstream (`Menu.World`) is one fixed function of the URL for a whole session, so two identical searches in one session see the same reply. The program makes a fresh request each time, and the upstream data may change in between. No lemma about the loop depends on this: they hold for any step function.
- The React front end (frontend/src/App.js, frontend/src/api.js) is browser UI. It is not part of this model.

## Findings

| source | as written | input that shows it | evidently intended | confidence | as-written member | corrected member |
|---|---|---|---|---|---|---|
| main.go:159-160 | the loop ignores whether `scanner.Scan()` read a line; at the end of input `scanner.Text()` is the empty string, which falls to the default branch, so the loop prints "Invalid choice, try again." and reads again forever | input in which "4" is never read as a choice and every search fetches successfully, e.g. empty input, or the lines "1" and "4" (the "4" is read as a team name) | stop when no further choice can be read | high, not executed | Menu.EndOfInputLoopsForever | Menu.RunToEofStops |

=== FILE: cli.dfy ===
/** The command-line front end (`main.go`): the three searches, the local
    team-name filter and the text each search prints. A fetch failure ends
    the process through `log.Fatalf`, modelled as `Aborted`. */
module Cli {
  import opened Types
  import opened Text
  import opened Fmt
  import QueryEscape
  import opened Upstream
  import Seqs

  /** The id URL: the command-line tool also query-escapes the id. */
  function PlayerIdUrl(id: string): (url: string)
    ensures IsPrefix(PlayerIdBase, url)
    ensures forall i :: |PlayerIdBase| <= i < |url| ==> QueryEscape.Escaped(url[i])
  {
    PlayerIdBase + QueryEscape.Escape(id)
  }

  /** What the command-line tool does with one search: print some lines, or
      stop the whole process with a fatal message. */
  datatype CliOutput = Printed(lines: seq<string>) | Aborted(message: string)

  // ---------------------------------------------------------------------
  // Team search: fetch every team, keep those whose name contains the term.

  /** The match test of the team search: the lower-cased name contains the
      lower-cased term. */
  predicate Matches(t: Team, term: string)
  {
    Contains(Lower(t.name), Lower(term))
  }

  /** The team search's test, as a function a filter can apply. */
  function MatchesTerm(term: string): Team -> bool
  {
    t => Matches(t, term)
  }

  /** The teams that match `term`, in upstream order. */
  function FilterTeams(teams: seq<Team>, term: string): seq<Team>
  {
    Seqs.Filter(teams, MatchesTerm(term))
  }

  /** The search result is the subsequence of the upstream list at exactly
      the positions whose team matches, so it keeps upstream order. */
  lemma TeamSearchIsMatchingSubsequence(teams: seq<Team>, term: string) returns (idx: seq<int>)
    ensures Seqs.SubsequenceAt(FilterTeams(teams, term), teams, idx)
    ensures forall i :: 0 <= i < |teams| ==> (i in idx <==> Matches(teams[i], term))
  {
    idx := Seqs.FilterPositions(teams, MatchesTerm(term));
  }

  /** Every returned team matches, and every matching team is returned. */
  lemma TeamSearchSoundComplete(teams: seq<Team>, term: string)
    ensures forall t :: t in FilterTeams(teams, term) ==> t in teams && Matches(t, term)
    ensures forall t :: t in teams && Matches(t, term) ==> t in FilterTeams(teams, term)
  {
    Seqs.FilterSound(teams, MatchesTerm(term));
    Seqs.FilterComplete(teams, MatchesTerm(term));
  }

  /** The empty term is contained in every name: it keeps all teams. */
  lemma EmptyTermKeepsAll(teams: seq<Team>)
    ensures FilterTeams(teams, "") == teams
  {
    forall t | t in teams
      ensures MatchesTerm("")(t)
    {
      assert IsPrefix(Lower(""), Lower(t.name));
    }
    Seqs.FilterKeepAll(teams, MatchesTerm(""));
  }

  /** Changing the ASCII case of the term or of a team name does not change
      whether the team matches. */
  lemma MatchIgnoresCase(t1: Team, t2: Team, term1: string, term2: string)
    requires CaseVariants(t1.name, t2.name)
    requires CaseVariants(term1, term2)
    ensures Matches(t1, term1) == Matches(t2, term2)
  {
    CaseVariantsLowerEqual(t1.name, t2.name);
    CaseVariantsLowerEqual(term1, term2);
  }

  /** Hence the search gives the same teams for any case variant of the term. */
  lemma FilterIgnoresTermCase(teams: seq<Team>, term1: string, term2: string)
    requires CaseVariants(term1, term2)
    ensures FilterTeams(teams, term1) == FilterTeams(teams, term2)
  {
    CaseVariantsLowerEqual(term1, term2);
    Seqs.FilterAgree(teams, MatchesTerm(term1), MatchesTerm(term2));
  }

  /** And it picks the same positions from a list whose names differ only in
      case. */
  lemma FilterIgnoresNameCase(teams1: seq<Team>, teams2: seq<Team>, term: string)
    requires |teams1| == |teams2|
    requires forall i :: 0 <= i < |teams1| ==> CaseVariants(teams1[i].name, teams2[i].name)
    ensures |FilterTeams(teams1, term)| == |FilterTeams(teams2, term)|
    ensures forall i :: 0 <= i < |teams1| ==> (Matches(teams1[i], term) <==> Matches(teams2[i], term))
  {
    forall i | 0 <= i < |teams1|
      ensures Matches(teams1[i], term) <==> Matches(teams2[i], term)
    {
      CaseVariantsLowerEqual(teams1[i].name, teams2[i].name);
    }
    Seqs.FilterSameCount(teams1, teams2, MatchesTerm(term));
  }

  /** "Found Team: %d: %s", split at its verbs. */
  const TeamFormat: Format := Lit("Found Team: ", IntVerb(Lit(": ", StrVerb(End))))
  const TeamNotFound: string := "Team not found."

  /** One line of team output: `Printf` of the format with the id and name. */
  function TeamLine(t: Team): string
  {
    Sprintf(TeamFormat, [IntArg(t.id), StrArg(t.name)])
  }

  /** The team line is "Found Team: ", the id in decimal, ": " and the name,
      and the id can be read back from it: distinct ids give distinct lines. */
  lemma TeamLineLayout(t: Team)
    ensures TeamLine(t) == "Found Team: " + (FormatInt(t.id) + (": " + t.name))
    ensures ReadInt(TeamLine(t)[|"Found Team: "|..]) == (t.id, ": " + t.name)
  {
    var args := [IntArg(t.id), StrArg(t.name)];
    assert args[0] == IntArg(t.id) && args[1] == StrArg(t.name);
    RenderStr(End, args, 1, t.name);
    RenderLit(": ", StrVerb(End), args, 1);
    RenderInt(Lit(": ", StrVerb(End)), args, 0, t.id);
    RenderLit("Found Team: ", IntVerb(Lit(": ", StrVerb(End))), args, 0);
    var line := "Found Team: " + (FormatInt(t.id) + (": " + t.name));
    assert TeamLine(t) == line;
    assert line[|"Found Team: "|..] == FormatInt(t.id) + (": " + t.name);
    ReadFormatInt(t.id, ": " + t.name);
  }

  function TeamLines(ts: seq<Team>): (lines: seq<string>)
    ensures |lines| == |ts|
    ensures forall k :: 0 <= k < |ts| ==> lines[k] == TeamLine(ts[k])
  {
    if |ts| == 0 then [] else TeamLines(ts[..|ts| - 1]) + [TeamLine(ts[|ts| - 1])]
  }

  /** `searchTeam`: print a line for each matching team, or "Team not found."
      when there is none; a failed fetch is fatal. */
  function SearchTeam(term: string, reply: Upstream<TeamResponse>): (out: CliOutput)
  {
    match Fetch(reply)
    case Err(e) => Aborted("Error fetching teams: " + e)
    case Ok(env) =>
      var matches := FilterTeams(env.data, term);
      Printed(TeamLines(matches) + (if |matches| == 0 then [TeamNotFound] else []))
  }

  /** A failed fetch aborts with "Error fetching teams: " and the cause.
      "Team not found." is printed exactly when no upstream team matches, and
      then it is the only line; otherwise the lines are the matching teams'
      lines in upstream order. */
  lemma SearchTeamOutcome(term: string, reply: Upstream<TeamResponse>)
    ensures SearchTeam(term, reply).Aborted? <==> Fetch(reply).Err?
    ensures Fetch(reply).Err? ==>
      SearchTeam(term, reply) == Aborted("Error fetching teams: " + Fetch(reply).message)
    ensures Fetch(reply).Ok? ==>
      var teams := Fetch(reply).value.data;
      var lines := SearchTeam(term, reply).lines;
      && (TeamNotFound in lines <==> forall t :: t in teams ==> !Matches(t, term))
      && (TeamNotFound !in lines ==> lines == TeamLines(FilterTeams(teams, term)))
    ensures Fetch(reply).Ok? && (forall t :: t in Fetch(reply).value.data ==> !Matches(t, term)) ==>
      SearchTeam(term, reply) == Printed([TeamNotFound])
  {
    if Fetch(reply).Ok? {
      var teams := Fetch(reply).value.data;
      var matches := FilterTeams(teams, term);
      forall k | 0 <= k < |matches|
        ensures TeamLines(matches)[k] != TeamNotFound
      {
        TeamLineLayout(matches[k]);
        assert TeamLine(matches[k])[0] == 'F';
      }
      assert TeamNotFound !in TeamLines(matches);
      Seqs.FilterEmpty(teams, MatchesTerm(term));
    }
  }

  /** The loop of `searchTeam` as written, with its `found` flag: the flag
      ends true exactly when some team matches, and the lines printed are
      the matching teams' lines in upstream order. */
  method ScanTeams(teams: seq<Team>, term: string) returns (lines: seq<string>, found: bool)
    ensures lines == TeamLines(FilterTeams(teams, term))
    ensures found <==> exists t :: t in teams && Matches(t, term)
  {
    lines := [];
    found := false;
    var i := 0;
    assert teams[..0] == [];
    while i < |teams|
      invariant 0 <= i <= |teams|
      invariant lines == TeamLines(FilterTeams(teams[..i], term))
      invariant found <==> |FilterTeams(teams[..i], term)| > 0
    {
      var team := teams[i];
      assert teams[..i + 1] == teams[..i] + [team];
      Seqs.FilterSnoc(teams[..i], team, MatchesTerm(term));
      if Contains(Lower(team.name), Lower(term)) {
        lines := lines + [TeamLine(team)];
        found := true;
      }
      i := i + 1;
    }
    assert teams[..i] == teams;
    Seqs.FilterEmpty(teams, MatchesTerm(term));
  }

  // ---------------------------------------------------------------------
  // Player searches.

  /** "ID: %d | Player: %s %s | Team: %s | Stats: %s %s #%s", split at its
      verbs. */
  const PlayerFormat: Format :=
    Lit("ID: ", IntVerb(Lit(" | Player: ", StrVerb(Lit(" ", StrVerb(
    Lit(" | Team: ", StrVerb(Lit(" | Stats: ", StrVerb(Lit(" ", StrVerb(
    Lit(" #", StrVerb(End))))))))))))))
  const NoPlayersFound: string := "No players found."

  /** One line of player output: `Printf` of the format with the player's
      fields in the source's argument order. */
  function PlayerLine(p: Player): string
  {
    Sprintf(PlayerFormat, [IntArg(p.id), StrArg(p.first), StrArg(p.last),
      StrArg(p.team.name), StrArg(p.position), StrArg(p.height), StrArg(p.jersey)])
  }

  /** The player line shows id, first and last name, team name, position,
      height and jersey number, in that order. */
  lemma PlayerLineLayout(p: Player)
    ensures PlayerLine(p) ==
      "ID: " + (FormatInt(p.id) + (" | Player: " + (p.first + (" " + (p.last
      + (" | Team: " + (p.team.name + (" | Stats: " + (p.position + (" " + (p.height
      + (" #" + p.jersey))))))))))))
  {
    var args := [IntArg(p.id), StrArg(p.first), StrArg(p.last),
      StrArg(p.team.name), StrArg(p.position), StrArg(p.height), StrArg(p.jersey)];
    assert |args| == 7;
    assert args[0] == IntArg(p.id) && args[1] == StrArg(p.first) && args[2] == StrArg(p.last);
    assert args[3] == StrArg(p.team.name) && args[4] == StrArg(p.position);
    assert args[5] == StrArg(p.height) && args[6] == StrArg(p.jersey);
    var f6 := StrVerb(End);
    var f5 := StrVerb(Lit(" #", f6));
    var f4 := StrVerb(Lit(" ", f5));
    var f3 := StrVerb(Lit(" | Stats: ", f4));
    var f2 := StrVerb(Lit(" | Team: ", f3));
    var f1 := StrVerb(Lit(" ", f2));
    assert PlayerFormat == Lit("ID: ", IntVerb(Lit(" | Player: ", f1)));
    RenderStr(End, args, 6, p.jersey);
    RenderLit(" #", f6, args, 6);
    RenderStr(Lit(" #", f6), args, 5, p.height);
    RenderLit(" ", f5, args, 5);
    RenderStr(Lit(" ", f5), args, 4, p.position);
    RenderLit(" | Stats: ", f4, args, 4);
    RenderStr(Lit(" | Stats: ", f4), args, 3, p.team.name);
    RenderLit(" | Team: ", f3, args, 3);
    RenderStr(Lit(" | Team: ", f3), args, 2, p.last);
    RenderLit(" ", f2, args, 2);
    RenderStr(Lit(" ", f2), args, 1, p.first);
    RenderLit(" | Player: ", f1, args, 1);
    RenderInt(Lit(" | Player: ", f1), args, 0, p.id);
    RenderLit("ID: ", IntVerb(Lit(" | Player: ", f1)), args, 0);
  }

  /** The id can be read back from a player line. */
  lemma PlayerLineReadsId(p: Player)
    ensures ReadInt(PlayerLine(p)[|"ID: "|..]).0 == p.id
  {
    PlayerLineLayout(p);
    var tail := " | Player: " + (p.first + (" " + (p.last
      + (" | Team: " + (p.team.name + (" | Stats: " + (p.position + (" " + (p.height
      + (" #" + p.jersey))))))))));
    assert PlayerLine(p) == "ID: " + (FormatInt(p.id) + tail);
    assert PlayerLine(p)[|"ID: "|..] == FormatInt(p.id) + tail;
    ReadFormatInt(p.id, tail);
  }

  /** `searchPlayer`: the upstream list is printed as is, one line per player
      in upstream order, and "No players found." is printed exactly when the
      list is empty; a failed fetch is fatal. */
  function SearchPlayer(reply: Upstream<PlayerResponse>): (out: CliOutput)
    ensures out.Aborted? <==> Fetch(reply).Err?
    ensures out.Aborted? ==> out.message == "Error fetching players: " + Fetch(reply).message
    ensures Fetch(reply).Ok? ==>
      var players := Fetch(reply).value.data;
      && (NoPlayersFound in out.lines <==> |players| == 0)
      && (|players| == 0 ==> out.lines == [NoPlayersFound])
      && (|players| > 0 ==>
            && |out.lines| == |players|
            && forall k :: 0 <= k < |players| ==> out.lines[k] == PlayerLine(players[k]))
  {
    match Fetch(reply)
    case Err(e) => Aborted("Error fetching players: " + e)
    case Ok(env) =>
      if |env.data| == 0 then Printed([NoPlayersFound])
      else
        var lines := seq(|env.data|, k requires 0 <= k < |env.data| => PlayerLine(env.data[k]));
        assert NoPlayersFound !in lines by {
          forall k | 0 <= k < |lines|
            ensures lines[k] != NoPlayersFound
          {
            PlayerLineNotNoPlayers(env.data[k]);
          }
        }
        Printed(lines)
  }

  /** No player line can be mistaken for "No players found.". */
  lemma PlayerLineNotNoPlayers(p: Player)
    ensures PlayerLine(p) != NoPlayersFound
  {
    PlayerLineLayout(p);
    assert PlayerLine(p)[0] == 'I';
  }

  /** `searchPlayerId`: the one player of the single-object envelope is
      printed in the same line format; a failed fetch is fatal. */
  function SearchPlayerId(reply: Upstream<PlayerIdResponse>): (out: CliOutput)
    ensures out.Aborted? <==> Fetch(reply).Err?
    ensures out.Aborted? ==> out.message == "Error fetching players: " + Fetch(reply).message
    ensures Fetch(reply).Ok? ==> out.lines == [PlayerLine(Fetch(reply).value.data)]
  {
    match Fetch(reply)
    case Err(e) => Aborted("Error fetching players: " + e)
    case Ok(env) => Printed([PlayerLine(env.data)])
  }
}

=== FILE: fmt.dfy ===
/** The part of Go's `fmt.Printf` the command-line tool uses: literal text
    and the verbs `%d` (an `int` in decimal) and `%s` (a string verbatim).
    A format string is kept already split at its verbs, so that
    "a%db%s" is `Lit("a", IntVerb(Lit("b", StrVerb(End))))`. */
module Fmt {
  import opened Text

  datatype Format =
    | End
    | Lit(text: string, rest: Format)
    | IntVerb(rest: Format)
    | StrVerb(rest: Format)

  datatype Arg = IntArg(i: int) | StrArg(s: string)

  /** What `%d` prints for argument `k`: the number, or Go's complaint about
      a missing or mistyped argument. */
  function IntText(args: seq<Arg>, k: nat): string
  {
    if k >= |args| then "%!d(MISSING)"
    else match args[k]
      case IntArg(i) => FormatInt(i)
      case StrArg(s) => "%!d(string=" + s + ")"
  }

  /** What `%s` prints for argument `k`. */
  function StrText(args: seq<Arg>, k: nat): string
  {
    if k >= |args| then "%!s(MISSING)"
    else match args[k]
      case StrArg(s) => s
      case IntArg(i) => "%!s(int=" + FormatInt(i) + ")"
  }

  /** Prints `f`, taking the verbs' arguments from position `k` of `args` on. */
  function Render(f: Format, args: seq<Arg>, k: nat): string
  {
    match f
    case End => ""
    case Lit(s, rest) => s + Render(rest, args, k)
    case IntVerb(rest) => IntText(args, k) + Render(rest, args, k + 1)
    case StrVerb(rest) => StrText(args, k) + Render(rest, args, k + 1)
  }

  /** `fmt.Sprintf(f, args...)`, without the trailing report Go appends for
      unused arguments. */
  function Sprintf(f: Format, args: seq<Arg>): string
  {
    Render(f, args, 0)
  }

  lemma RenderLit(s: string, rest: Format, args: seq<Arg>, k: nat)
    ensures Render(Lit(s, rest), args, k) == s + Render(rest, args, k)
  {
  }

  lemma RenderInt(rest: Format, args: seq<Arg>, k: nat, n: int)
    requires k < |args| && args[k] == IntArg(n)
    ensures Render(IntVerb(rest), args, k) == FormatInt(n) + Render(rest, args, k + 1)
  {
  }

  lemma RenderStr(rest: Format, args: seq<Arg>, k: nat, v: string)
    requires k < |args| && args[k] == StrArg(v)
    ensures Render(StrVerb(rest), args, k) == v + Render(rest, args, k + 1)
  {
  }
}

=== FILE: menu.dfy ===
/** The command-line tool's main loop (`main` in `main.go`): read a choice,
    run the chosen search, repeat until "4". The menu and prompt text is not
    modelled; a session's output is the lines the searches and the loop
    print. Lines are read from a scanner that, once the input is exhausted,
    keeps yielding the empty string. */
module Menu {
  import opened Types
  import opened Upstream
  import Cli

  datatype Choice = SearchTeams | SearchPlayers | LookupPlayer | Exit | Invalid

  /** The `switch choice`: exactly the strings "1" to "4" select an action. */
  function Dispatch(choice: string): (c: Choice)
    ensures c == SearchTeams <==> choice == "1"
    ensures c == SearchPlayers <==> choice == "2"
    ensures c == LookupPlayer <==> choice == "3"
    ensures c == Exit <==> choice == "4"
  {
    if choice == "1" then SearchTeams
    else if choice == "2" then SearchPlayers
    else if choice == "3" then LookupPlayer
    else if choice == "4" then Exit
    else Invalid
  }

  const InvalidChoice: string := "Invalid choice, try again."
  const Exiting: string := "Exiting..."

  /** What the upstream API answers for each URL, per endpoint shape. */
  datatype World = World(
    teams: string -> Upstream<TeamResponse>,
    players: string -> Upstream<PlayerResponse>,
    player: string -> Upstream<PlayerIdResponse>)

  /** `scanner.Scan()` then `scanner.Text()`: the next input line, or the
      empty string once the input is exhausted. */
  function Scan(input: seq<string>): (r: (string, seq<string>))
    ensures |input| > 0 ==> r == (input[0], input[1..])
    ensures |input| == 0 ==> r == ("", [])
  {
    if |input| == 0 then ("", []) else (input[0], input[1..])
  }

  /** How a session stops: "4", a fatal fetch error, the end of the input
      (only in the corrected loop), or not yet within the rounds observed. */
  datatype Halt = Exited | Fatal(message: string) | EndOfInput | Running

  /** One round of the loop: go on with the printed lines, or stop. */
  datatype Round = Continue(lines: seq<string>, rest: seq<string>)
                 | Stop(halt: Halt, lines: seq<string>, rest: seq<string>)

  function AfterSearch(out: Cli.CliOutput, rest: seq<string>): Round
  {
    match out
    case Printed(lines) => Continue(lines, rest)
    case Aborted(message) => Stop(Fatal(message), [], rest)
  }

  /** One pass of the loop body as written. */
  function OneRound(input: seq<string>, w: World): (r: Round)
    ensures Dispatch(Scan(input).0) == Invalid ==> r == Continue([InvalidChoice], Scan(input).1)
    ensures Dispatch(Scan(input).0) == Exit ==> r == Stop(Exited, [Exiting], Scan(input).1)
    ensures r.Stop? ==> r.halt.Exited? || r.halt.Fatal?
    ensures r.Stop? && r.halt == Exited <==> Dispatch(Scan(input).0) == Exit
  {
    var (choice, rest) := Scan(input);
    match Dispatch(choice)
    case Exit => Stop(Exited, [Exiting], rest)
    case Invalid => Continue([InvalidChoice], rest)
    case SearchTeams =>
      var (name, rest') := Scan(rest);
      AfterSearch(Cli.SearchTeam(name, w.teams(TeamsUrl)), rest')
    case SearchPlayers =>
      var (name, rest') := Scan(rest);
      AfterSearch(Cli.SearchPlayer(w.players(SearchUrl(name))), rest')
    case LookupPlayer =>
      var (id, rest') := Scan(rest);
      AfterSearch(Cli.SearchPlayerId(w.player(Cli.PlayerIdUrl(id))), rest')
  }

  /** The loop body as a function of the unread input. */
  function Step(w: World): seq<string> -> Round
  {
    input => OneRound(input, w)
  }

  /** What every round of the loop satisfies: it consumes input while there
      is some, reads the empty choice once there is none, and stops only
      through "4" or a fatal error. */
  ghost predicate RoundShape(input: seq<string>, r: Round)
  {
    && |r.rest| <= |input| && r.rest == input[|input| - |r.rest|..]
    && (|input| > 0 ==> |r.rest| < |input|)
    && |input| - |r.rest| <= 2
    && (|input| == 0 ==> r == Continue([InvalidChoice], []))
    && (r.Stop? ==> r.halt.Exited? || r.halt.Fatal?)
    && (r.Stop? && r.halt == Exited ==> |input| > 0 && input[0] == "4")
  }

  ghost predicate Tame(step: seq<string> -> Round)
  {
    forall input :: RoundShape(input, step(input))
  }

  /** A round reads one or two lines and leaves the rest unread. */
  lemma OneRoundShape(input: seq<string>, w: World)
    ensures RoundShape(input, OneRound(input, w))
  {
    var (choice, rest) := Scan(input);
    assert rest == input[|input| - |rest|..];
    var (arg, rest') := Scan(rest);
    assert rest' == input[|input| - |rest'|..];
  }

  lemma StepTame(w: World)
    ensures Tame(Step(w))
  {
    forall input: seq<string>
      ensures RoundShape(input, Step(w)(input))
    {
      OneRoundShape(input, w);
    }
  }

  /** The session after at most `rounds` passes of the loop: how it stopped,
      everything printed, and the unread input. */
  datatype Session = Session(halt: Halt, lines: seq<string>, rest: seq<string>)

  /** The loop, run for `rounds` passes of `step`. With `stopAtEof` false
      it is the loop as written; with `stopAtEof` true it also stops when no
      line is left to read a choice from. */
  function Loop(input: seq<string>, step: seq<string> -> Round, rounds: nat, stopAtEof: bool): Session
    decreases rounds
  {
    if rounds == 0 then Session(Running, [], input)
    else if stopAtEof && |input| == 0 then Session(EndOfInput, [], [])
    else
      match step(input)
      case Stop(halt, lines, rest) => Session(halt, lines, rest)
      case Continue(lines, rest) =>
        var s := Loop(rest, step, rounds - 1, stopAtEof);
        Session(s.halt, lines + s.lines, s.rest)
  }

  /** The loop as written. */
  function Run(input: seq<string>, w: World, rounds: nat): Session
  {
    Loop(input, Step(w), rounds, false)
  }

  /** The loop stopping at the end of its input. */
  function RunToEof(input: seq<string>, w: World, rounds: nat): Session
  {
    Loop(input, Step(w), rounds, true)
  }

  /** Any choice other than "1" to "4" prints the complaint and the loop
      goes on with the next line. */
  lemma InvalidChoiceContinues(input: seq<string>, w: World, rounds: nat)
    requires |input| > 0 && Dispatch(input[0]) == Invalid
    ensures var s := Run(input[1..], w, rounds);
      Run(input, w, rounds + 1) == Session(s.halt, [InvalidChoice] + s.lines, s.rest)
  {
    assert Step(w)(input) == Continue([InvalidChoice], input[1..]);
  }

  /** "4" ends the loop at once. */
  lemma ChoiceFourExits(input: seq<string>, w: World, rounds: nat)
    requires |input| > 0 && input[0] == "4"
    ensures Run(input, w, rounds + 1) == Session(Exited, [Exiting], input[1..])
  {
    assert Dispatch(Scan(input).0) == Exit;
    assert Step(w)(input) == Stop(Exited, [Exiting], input[1..]);
  }

  /** "1" reads the team name from the next line and searches the team
      list; the session goes on after printed lines and stops, printing
      nothing more, when the fetch fails. */
  lemma ChoiceOneSearchesTeams(input: seq<string>, w: World, rounds: nat)
    requires |input| > 0 && input[0] == "1"
    ensures var (name, rest) := Scan(input[1..]);
      var out := Cli.SearchTeam(name, w.teams(TeamsUrl));
      var s := Run(rest, w, rounds);
      Run(input, w, rounds + 1) ==
        if out.Aborted? then Session(Fatal(out.message), [], rest)
        else Session(s.halt, out.lines + s.lines, s.rest)
  {
    assert Dispatch(Scan(input).0) == SearchTeams;
  }

  /** "2" reads the player name and searches players by it. */
  lemma ChoiceTwoSearchesPlayers(input: seq<string>, w: World, rounds: nat)
    requires |input| > 0 && input[0] == "2"
    ensures var (name, rest) := Scan(input[1..]);
      var out := Cli.SearchPlayer(w.players(SearchUrl(name)));
      var s := Run(rest, w, rounds);
      Run(input, w, rounds + 1) ==
        if out.Aborted? then Session(Fatal(out.message), [], rest)
        else Session(s.halt, out.lines + s.lines, s.rest)
  {
    assert Dispatch(Scan(input).0) == SearchPlayers;
  }

  /** "3" reads the player id and looks that player up. */
  lemma ChoiceThreeLooksUpPlayer(input: seq<string>, w: World, rounds: nat)
    requires |input| > 0 && input[0] == "3"
    ensures var (id, rest) := Scan(input[1..]);
      var out := Cli.SearchPlayerId(w.player(Cli.PlayerIdUrl(id)));
      var s := Run(rest, w, rounds);
      Run(input, w, rounds + 1) ==
        if out.Aborted? then Session(Fatal(out.message), [], rest)
        else Session(s.halt, out.lines + s.lines, s.rest)
  {
    assert Dispatch(Scan(input).0) == LookupPlayer;
  }

  lemma {:induction false} LoopExitNeedsFour(input: seq<string>, step: seq<string> -> Round, rounds: nat)
    requires Tame(step)
    requires Loop(input, step, rounds, false).halt == Exited
    ensures "4" in input
  {
    if rounds > 0 {
      var r := step(input);
      assert RoundShape(input, r);
      if r.Continue? {
        LoopExitNeedsFour(r.rest, step, rounds - 1);
        assert r.rest == input[|input| - |r.rest|..];
      }
    }
  }

  /** The loop as written never leaves through "4" unless some input line
      is "4". */
  lemma ExitNeedsFour(input: seq<string>, w: World, rounds: nat)
    requires Run(input, w, rounds).halt == Exited
    ensures "4" in input
  {
    StepTame(w);
    LoopExitNeedsFour(input, Step(w), rounds);
  }

  lemma {:induction false} LoopSpinsAtEof(step: seq<string> -> Round, rounds: nat)
    requires Tame(step)
    ensures Loop([], step, rounds, false).halt == Running
    ensures Loop([], step, rounds, false).lines == seq(rounds, _ => InvalidChoice)
  {
    if rounds > 0 {
      assert RoundShape([], step([]));
      LoopSpinsAtEof(step, rounds - 1);
      assert [InvalidChoice] + seq(rounds - 1, _ => InvalidChoice) == seq(rounds, _ => InvalidChoice);
    }
  }

  /** At the end of the input the loop as written spins: every further
      round reads the empty choice and prints the complaint, and it never
      stops. */
  lemma EndOfInputLoopsForever(w: World, rounds: nat)
    ensures Run([], w, rounds).halt == Running
    ensures |Run([], w, rounds).lines| == rounds
    ensures forall i :: 0 <= i < rounds ==> Run([], w, rounds).lines[i] == InvalidChoice
  {
    StepTame(w);
    LoopSpinsAtEof(Step(w), rounds);
  }

  lemma {:induction false} LoopStopsAtEof(input: seq<string>, step: seq<string> -> Round, rounds: nat)
    requires Tame(step)
    requires rounds > |input|
    ensures Loop(input, step, rounds, true).halt != Running
    decreases |input|
  {
    if |input| > 0 {
      var r := step(input);
      assert RoundShape(input, r);
      if r.Continue? {
        LoopStopsAtEof(r.rest, step, rounds - 1);
      }
    }
  }

  /** The corrected loop stops within one round more than it has input
      lines. */
  lemma RunToEofStops(input: seq<string>, w: World, rounds: nat)
    requires rounds > |input|
    ensures RunToEof(input, w, rounds).halt != Running
  {
    StepTame(w);
    LoopStopsAtEof(input, Step(w), rounds);
  }

  lemma {:induction false} LoopEofAgrees(input: seq<string>, step: seq<string> -> Round, rounds: nat)
    requires Tame(step)
    requires Loop(input, step, rounds, false).halt.Exited? || Loop(input, step, rounds, false).halt.Fatal?
    ensures Loop(input, step, rounds, true) == Loop(input, step, rounds, false)
  {
    if rounds > 0 {
      if |input| == 0 {
        LoopSpinsAtEof(step, rounds);
      } else {
        var r := step(input);
        if r.Continue? {
          LoopEofAgrees(r.rest, step, rounds - 1);
        }
      }
    }
  }

  /** The correction changes nothing for a session that ends through "4" or
      a fatal error: it gives the same output and leaves the same input. */
  lemma RunToEofAgrees(input: seq<string>, w: World, rounds: nat)
    requires Run(input, w, rounds).halt.Exited? || Run(input, w, rounds).halt.Fatal?
    ensures RunToEof(input, w, rounds) == Run(input, w, rounds)
  {
    StepTame(w);
    LoopEofAgrees(input, Step(w), rounds);
  }
}

=== FILE: query_escape.dfy ===
/** Go's `url.QueryEscape`, which both front ends apply to the user's search
    term (and the command-line tool also to the player id) before placing it
    in the upstream URL. Go escapes the UTF-8 bytes of the string: a byte
    that is an ASCII letter, digit or one of `-_.~` is kept, a space becomes
    `+`, and every other byte becomes `%` and two upper-case hex digits. */
module QueryEscape {

  type Byte = b: int | 0 <= b < 256

  /** Characters `url.QueryEscape` leaves alone. */
  predicate Unreserved(c: char)
  {
    || ('a' <= c <= 'z') || ('A' <= c <= 'Z') || ('0' <= c <= '9')
    || c == '-' || c == '_' || c == '.' || c == '~'
  }

  /** Characters an escaped string may contain. None of them can end a query
      value or start a new parameter, fragment or path segment. */
  predicate Escaped(c: char)
  {
    Unreserved(c) || c == '+' || c == '%'
  }

  /** The UTF-8 encoding of one character. */
  function Utf8(c: char): (r: seq<Byte>)
    ensures 1 <= |r| <= 4
    ensures c as int < 0x80 ==> r == [c as int]
    ensures c as int >= 0x80 ==> |r| >= 2 && forall i :: 0 <= i < |r| ==> r[i] >= 0x80
  {
    var n := c as int;
    if n < 0x80 then [n]
    else if n < 0x800 then [0xC0 + n / 64, 0x80 + n % 64]
    else if n < 0x10000 then [0xE0 + n / 4096, 0x80 + (n / 64) % 64, 0x80 + n % 64]
    else [0xF0 + n / 262144, 0x80 + (n / 4096) % 64, 0x80 + (n / 64) % 64, 0x80 + n % 64]
  }

  function HexDigit(d: int): (c: char)
    requires 0 <= d < 16
    ensures Unreserved(c)
  {
    "0123456789ABCDEF"[d]
  }

  /** The escape of one byte. */
  function EscapeByte(b: Byte): (r: string)
    ensures forall i :: 0 <= i < |r| ==> Escaped(r[i])
    ensures Unreserved(b as char) ==> r == [b as char]
    ensures b == ' ' as int ==> r == "+"
    ensures !Unreserved(b as char) && b != ' ' as int ==> |r| == 3 && r[0] == '%'
  {
    if Unreserved(b as char) then [b as char]
    else if b == ' ' as int then "+"
    else ['%', HexDigit(b / 16), HexDigit(b % 16)]
  }

  function EscapeBytes(bs: seq<Byte>): (r: string)
    ensures forall i :: 0 <= i < |r| ==> Escaped(r[i])
    ensures |r| >= |bs|
  {
    if |bs| == 0 then "" else EscapeByte(bs[0]) + EscapeBytes(bs[1..])
  }

  /** The escape of one character: the escapes of its UTF-8 bytes. */
  function EscapeChar(c: char): (r: string)
    ensures |r| >= 1
    ensures forall i :: 0 <= i < |r| ==> Escaped(r[i])
    ensures Unreserved(c) ==> r == [c]
    ensures c == ' ' ==> r == "+"
    ensures !Unreserved(c) && c != ' ' ==> |r| >= 3 && r[0] == '%'
  {
    var bs := Utf8(c);
    if c as int < 0x80 then
      assert bs == [c as int] && (c as int) as char == c;
      assert EscapeBytes(bs) == EscapeByte(bs[0]) + EscapeBytes([]);
      EscapeBytes(bs)
    else
      assert !Unreserved(bs[0] as char) && bs[0] != ' ' as int;
      EscapeBytes(bs)
  }

  /** `url.QueryEscape`. The result never contains a character that could
      break out of a query value. */
  function Escape(s: string): (r: string)
    ensures |r| >= |s|
    ensures forall i :: 0 <= i < |r| ==> Escaped(r[i])
  {
    if |s| == 0 then "" else EscapeChar(s[0]) + Escape(s[1..])
  }

  /** Escaping leaves a string unchanged exactly when every character of it
      is unreserved. */
  lemma {:induction false} EscapeIdentityIff(s: string)
    ensures Escape(s) == s <==> forall i :: 0 <= i < |s| ==> Unreserved(s[i])
  {
    if |s| > 0 {
      EscapeIdentityIff(s[1..]);
      var e := EscapeChar(s[0]);
      if Escape(s) == s {
        assert |e| == 1 by {
          assert |Escape(s[1..])| >= |s| - 1;
        }
        assert e[0] == s[0] by {
          assert Escape(s)[0] == e[0];
        }
        assert Unreserved(s[0]);
        assert Escape(s[1..]) == s[1..] by {
          assert Escape(s)[1..] == Escape(s[1..]);
        }
        forall i | 0 <= i < |s|
          ensures Unreserved(s[i])
        {
          if i > 0 {
            assert s[i] == s[1..][i - 1];
          }
        }
      }
    }
  }
}

=== FILE: seqs.dfy ===
/** Order-preserving filtering of a sequence, and what it means to be the
    subsequence a filter picks out. */
module Seqs {

  /** The elements of `xs` that `keep` accepts, in their original order. */
  function Filter<T>(xs: seq<T>, keep: T -> bool): (r: seq<T>)
    decreases |xs|
  {
    if |xs| == 0 then []
    else Filter(xs[..|xs| - 1], keep) + (if keep(xs[|xs| - 1]) then [xs[|xs| - 1]] else [])
  }

  ghost predicate StrictlyIncreasing(idx: seq<int>)
  {
    forall a, b :: 0 <= a < b < |idx| ==> idx[a] < idx[b]
  }

  /** `r` is the subsequence of `xs` at the increasing positions `idx`. */
  ghost predicate SubsequenceAt<T>(r: seq<T>, xs: seq<T>, idx: seq<int>)
  {
    && |idx| == |r|
    && StrictlyIncreasing(idx)
    && forall k :: 0 <= k < |idx| ==> 0 <= idx[k] < |xs| && r[k] == xs[idx[k]]
  }

  /** Filtering one more element extends the result by that element when it
      is kept. */
  lemma FilterSnoc<T>(xs: seq<T>, x: T, keep: T -> bool)
    ensures Filter(xs + [x], keep) == Filter(xs, keep) + (if keep(x) then [x] else [])
  {
    assert (xs + [x])[..|xs|] == xs;
  }

  /** The filter picks out exactly the positions whose element is kept, in
      increasing order. */
  lemma {:induction false} FilterPositions<T>(xs: seq<T>, keep: T -> bool) returns (idx: seq<int>)
    ensures SubsequenceAt(Filter(xs, keep), xs, idx)
    ensures forall i :: 0 <= i < |xs| ==> (i in idx <==> keep(xs[i]))
  {
    if |xs| == 0 {
      idx := [];
    } else {
      var n := |xs| - 1;
      var init := xs[..n];
      var idx0 := FilterPositions(init, keep);
      idx := idx0 + (if keep(xs[n]) then [n] else []);
      forall i | 0 <= i < |xs|
        ensures i in idx <==> keep(xs[i])
      {
        if i < n {
          assert init[i] == xs[i];
          assert i in idx <==> i in idx0;
        }
      }
    }
  }

  /** Every element of the result is an element of `xs` that is kept. */
  lemma FilterSound<T>(xs: seq<T>, keep: T -> bool)
    ensures forall x :: x in Filter(xs, keep) ==> x in xs && keep(x)
  {
    var r := Filter(xs, keep);
    var idx := FilterPositions(xs, keep);
    forall x | x in r
      ensures x in xs && keep(x)
    {
      var k :| 0 <= k < |r| && r[k] == x;
      assert idx[k] in idx;
    }
  }

  /** Every kept element of `xs` is in the result. */
  lemma FilterComplete<T>(xs: seq<T>, keep: T -> bool)
    ensures forall x :: x in xs && keep(x) ==> x in Filter(xs, keep)
  {
    var r := Filter(xs, keep);
    var idx := FilterPositions(xs, keep);
    forall x | x in xs && keep(x)
      ensures x in r
    {
      var i :| 0 <= i < |xs| && xs[i] == x;
      assert i in idx;
      var k :| 0 <= k < |idx| && idx[k] == i;
    }
  }

  /** A filter that keeps everything returns its input. */
  lemma {:induction false} FilterKeepAll<T>(xs: seq<T>, keep: T -> bool)
    requires forall x :: x in xs ==> keep(x)
    ensures Filter(xs, keep) == xs
  {
    if |xs| > 0 {
      var n := |xs| - 1;
      FilterKeepAll(xs[..n], keep);
      assert xs[n] in xs;
      assert xs == xs[..n] + [xs[n]];
    }
  }

  /** Filters that agree on every element of `xs` give the same result. */
  lemma {:induction false} FilterAgree<T>(xs: seq<T>, keep1: T -> bool, keep2: T -> bool)
    requires forall x :: x in xs ==> keep1(x) == keep2(x)
    ensures Filter(xs, keep1) == Filter(xs, keep2)
  {
    if |xs| > 0 {
      var n := |xs| - 1;
      assert forall x :: x in xs[..n] ==> x in xs;
      FilterAgree(xs[..n], keep1, keep2);
      assert xs[n] in xs;
    }
  }

  /** Lists of equal length whose elements are kept at the same positions
      keep equally many. */
  lemma {:induction false} FilterSameCount<T>(xs: seq<T>, ys: seq<T>, keep: T -> bool)
    requires |xs| == |ys|
    requires forall i :: 0 <= i < |xs| ==> keep(xs[i]) == keep(ys[i])
    ensures |Filter(xs, keep)| == |Filter(ys, keep)|
  {
    if |xs| > 0 {
      var n := |xs| - 1;
      FilterSameCount(xs[..n], ys[..n], keep);
    }
  }

  /** The result is empty exactly when no element is kept. */
  lemma FilterEmpty<T>(xs: seq<T>, keep: T -> bool)
    ensures |Filter(xs, keep)| == 0 <==> forall x :: x in xs ==> !keep(x)
  {
    FilterSound(xs, keep);
    FilterComplete(xs, keep);
    if |Filter(xs, keep)| > 0 {
      assert Filter(xs, keep)[0] in Filter(xs, keep);
    }
  }
}

=== FILE: server.dfy ===
/** The HTTP front end (`backend/main.go`): two handlers that validate the
    request, call the upstream API at most once and answer either with an
    error text or with the decoded envelope re-encoded as JSON. */
module Server {
  import opened Types
  import opened Text
  import QueryEscape
  import opened Upstream
  import Cli

  /** What a handler reads from a request: the URL path and the query
      parameters, decoded, in the order they appear. */
  datatype Request = Request(path: string, query: seq<(string, string)>)

  /** A response body: plain text from `http.Error`, or the JSON encoding of
      an envelope (the encoding itself is not modelled). */
  datatype Body =
    | PlainText(text: string)
    | PlayersJson(list: PlayerResponse)
    | PlayerJson(single: PlayerIdResponse)

  datatype Response = Response(status: int, contentType: string, body: Body)

  /** A handler's answer together with the upstream URLs it requested. */
  datatype Exchange = Exchange(response: Response, fetched: seq<string>)

  const StatusBadRequest: int := 400
  const StatusInternalServerError: int := 500
  const PlainTextType: string := "text/plain; charset=utf-8"
  const JsonType: string := "application/json"

  const PathPrefix: string := "/players/"
  const MissingId: string := "Missing player ID"
  const MissingSearch: string := "Missing search query"
  const FetchFailedPrefix: string := "Error fetching players: "

  /** `http.Error`: a plain-text body holding the message and a newline. */
  function HttpError(message: string, code: int): (r: Response)
    ensures r.status == code && r.contentType == PlainTextType
    ensures r.body == PlainText(message + "\n")
  {
    Response(code, PlainTextType, PlainText(message + "\n"))
  }

  /** `url.Values.Get`: the first value given for `key`, or "" when there is
      none. */
  function QueryGet(query: seq<(string, string)>, key: string): (v: string)
    ensures (forall i :: 0 <= i < |query| ==> query[i].0 != key) ==> v == ""
    ensures forall i :: 0 <= i < |query| ==>
      (query[i].0 == key && (forall j :: 0 <= j < i ==> query[j].0 != key)) ==> v == query[i].1
  {
    if |query| == 0 then ""
    else if query[0].0 == key then query[0].1
    else
      var v := QueryGet(query[1..], key);
      assert forall i :: 1 <= i < |query| ==> query[1..][i - 1] == query[i];
      v
  }

  /** The upstream URL of an id lookup: the id is appended as it is. */
  function IdUrl(id: string): string
  {
    PlayerIdBase + id
  }

  /** The answer to a finished fetch: 500 with the cause, or 200 with the
      envelope as JSON. */
  function Answer<E>(outcome: Result<E>, json: E -> Body): (r: Response)
    ensures outcome.Err? ==> r == HttpError(FetchFailedPrefix + outcome.message, StatusInternalServerError)
    ensures outcome.Ok? ==> r == Response(StatusOK, JsonType, json(outcome.value))
  {
    match outcome
    case Err(e) => HttpError(FetchFailedPrefix + e, StatusInternalServerError)
    case Ok(v) => Response(StatusOK, JsonType, json(v))
  }

  /** `playerNameHandler`. It first requires a non-empty id after "/players/"
      (a guard that fires only for the paths "" and "/players/", see
      NameHandlerIdCheckPaths), then a non-empty `search`
      parameter; only then does it fetch, once, from the escaped search URL. */
  function PlayerNameHandler(r: Request, upstream: string -> Upstream<PlayerResponse>): (x: Exchange)
    ensures TrimPrefix(r.path, PathPrefix) == "" ==>
      x == Exchange(HttpError(MissingId, StatusBadRequest), [])
    ensures TrimPrefix(r.path, PathPrefix) != "" && QueryGet(r.query, "search") == "" ==>
      x == Exchange(HttpError(MissingSearch, StatusBadRequest), [])
    ensures TrimPrefix(r.path, PathPrefix) != "" && QueryGet(r.query, "search") != "" ==>
      var url := SearchUrl(QueryGet(r.query, "search"));
      x == Exchange(Answer(Fetch(upstream(url)), (v: PlayerResponse) => PlayersJson(v)), [url])
  {
    var id := TrimPrefix(r.path, PathPrefix);
    if id == "" then Exchange(HttpError(MissingId, StatusBadRequest), [])
    else
      var term := QueryGet(r.query, "search");
      if term == "" then Exchange(HttpError(MissingSearch, StatusBadRequest), [])
      else
        var url := SearchUrl(term);
        Exchange(Answer(Fetch(upstream(url)), (v: PlayerResponse) => PlayersJson(v)), [url])
  }

  /** `playerIdHandler`: a non-empty id after "/players/" is required; then
      one fetch from the id URL. */
  function PlayerIdHandler(r: Request, upstream: string -> Upstream<PlayerIdResponse>): (x: Exchange)
    ensures TrimPrefix(r.path, PathPrefix) == "" ==>
      x == Exchange(HttpError(MissingId, StatusBadRequest), [])
    ensures TrimPrefix(r.path, PathPrefix) != "" ==>
      var url := IdUrl(TrimPrefix(r.path, PathPrefix));
      x == Exchange(Answer(Fetch(upstream(url)), (v: PlayerIdResponse) => PlayerJson(v)), [url])
  {
    var id := TrimPrefix(r.path, PathPrefix);
    if id == "" then Exchange(HttpError(MissingId, StatusBadRequest), [])
    else
      var url := IdUrl(id);
      Exchange(Answer(Fetch(upstream(url)), (v: PlayerIdResponse) => PlayerJson(v)), [url])
  }

  /** The search term as the handler reads it. */
  function SearchTerm(r: Request): string
  {
    QueryGet(r.query, "search")
  }

  /** Whether the name handler's validation lets a request through. */
  predicate NameRequestValid(r: Request)
  {
    TrimPrefix(r.path, PathPrefix) != "" && SearchTerm(r) != ""
  }

  /** A request the name handler rejects is answered 400 without contacting
      the upstream: whatever the upstream would have said, the answer is the
      same. A valid request leads to exactly one upstream call. */
  lemma NameHandlerFetchesOnlyValid(r: Request, u1: string -> Upstream<PlayerResponse>,
                                    u2: string -> Upstream<PlayerResponse>)
    ensures PlayerNameHandler(r, u1).fetched == [] <==> !NameRequestValid(r)
    ensures !NameRequestValid(r) ==>
      && PlayerNameHandler(r, u1) == PlayerNameHandler(r, u2)
      && PlayerNameHandler(r, u1).response.status == StatusBadRequest
    ensures NameRequestValid(r) ==> PlayerNameHandler(r, u1).fetched == [SearchUrl(SearchTerm(r))]
  {
  }

  /** The id lookup likewise: an empty id is answered 400 without contacting
      the upstream, and any other id leads to exactly one upstream call. */
  lemma IdHandlerFetchesOnlyValid(r: Request, u1: string -> Upstream<PlayerIdResponse>,
                                  u2: string -> Upstream<PlayerIdResponse>)
    ensures PlayerIdHandler(r, u1).fetched == [] <==> TrimPrefix(r.path, PathPrefix) == ""
    ensures TrimPrefix(r.path, PathPrefix) == "" ==>
      && PlayerIdHandler(r, u1) == PlayerIdHandler(r, u2)
      && PlayerIdHandler(r, u1).response.status == StatusBadRequest
  {
  }

  /** A request that fails both checks of the name handler is reported as a
      missing id: the id check runs first. */
  lemma NameHandlerChecksIdFirst(r: Request, u: string -> Upstream<PlayerResponse>)
    requires TrimPrefix(r.path, PathPrefix) == "" && SearchTerm(r) == ""
    ensures PlayerNameHandler(r, u).response.body == PlainText(MissingId + "\n")
  {
  }

  /** The name handler's missing-id guard fires only for the paths "" and
      "/players/". The server registers the handler for the exact path
      "/players", so the guard never fires there. */
  lemma NameHandlerIdCheckPaths(r: Request, u: string -> Upstream<PlayerResponse>)
    ensures PlayerNameHandler(r, u).response == HttpError(MissingId, StatusBadRequest)
      <==> r.path == "" || r.path == PathPrefix
  {
    TrimPrefixEmpty(r.path, PathPrefix);
    assert |MissingId + "\n"| != |MissingSearch + "\n"|;
  }

  /** In particular the path "/players", the only one routed to this
      handler, never gets the missing-id answer. */
  lemma NameRouteNeverMissesId(r: Request, u: string -> Upstream<PlayerResponse>)
    requires r.path == "/players"
    ensures PlayerNameHandler(r, u).response.body != PlainText(MissingId + "\n")
  {
    assert |r.path| < |PathPrefix|;
    NameHandlerIdCheckPaths(r, u);
    assert |MissingId + "\n"| != |MissingSearch + "\n"|;
  }

  /** How a handler's status code reflects what happened: 400 exactly when
      nothing was fetched, 200 exactly when the fetch succeeded (and then the
      body is the decoded envelope as JSON), 500 exactly when the fetch
      failed (and then the body carries the cause). */
  lemma NameHandlerStatus(r: Request, u: string -> Upstream<PlayerResponse>)
    ensures var x := PlayerNameHandler(r, u);
      && (x.response.status == StatusBadRequest <==> x.fetched == [])
      && (x.response.status == StatusOK <==> |x.fetched| == 1 && Fetch(u(x.fetched[0])).Ok?)
      && (x.response.status == StatusInternalServerError <==>
            |x.fetched| == 1 && Fetch(u(x.fetched[0])).Err?)
      && (x.response.status == StatusOK ==>
            x.response == Response(StatusOK, JsonType, PlayersJson(Fetch(u(x.fetched[0])).value)))
      && (x.response.status == StatusInternalServerError ==>
            x.response.body == PlainText(FetchFailedPrefix + Fetch(u(x.fetched[0])).message + "\n"))
  {
  }

  lemma IdHandlerStatus(r: Request, u: string -> Upstream<PlayerIdResponse>)
    ensures var x := PlayerIdHandler(r, u);
      && (x.response.status == StatusBadRequest <==> x.fetched == [])
      && (x.response.status == StatusOK <==> |x.fetched| == 1 && Fetch(u(x.fetched[0])).Ok?)
      && (x.response.status == StatusInternalServerError <==>
            |x.fetched| == 1 && Fetch(u(x.fetched[0])).Err?)
      && (x.response.status == StatusOK ==>
            x.response == Response(StatusOK, JsonType, PlayerJson(Fetch(u(x.fetched[0])).value)))
      && (x.response.status == StatusInternalServerError ==>
            x.response.body == PlainText(FetchFailedPrefix + Fetch(u(x.fetched[0])).message + "\n"))
  {
  }

  /** A 200 upstream reply that decodes is answered 200 with the decoded
      envelope, re-encoded as JSON. An upstream status other than 200
      reaches the client as a 500 naming that status. */
  lemma NameHandlerForwardsUpstream(r: Request, u: string -> Upstream<PlayerResponse>)
    requires NameRequestValid(r)
    ensures var reply := u(SearchUrl(SearchTerm(r)));
      && (reply.Reply? && reply.code == StatusOK && reply.body.Parsed? ==>
            PlayerNameHandler(r, u).response == Response(StatusOK, JsonType, PlayersJson(reply.body.value)))
      && (reply.Reply? && reply.code != StatusOK ==>
            PlayerNameHandler(r, u).response ==
              HttpError(FetchFailedPrefix + StatusPrefix + reply.status, StatusInternalServerError))
  {
  }

  lemma IdHandlerForwardsUpstream(r: Request, u: string -> Upstream<PlayerIdResponse>)
    requires TrimPrefix(r.path, PathPrefix) != ""
    ensures var reply := u(IdUrl(TrimPrefix(r.path, PathPrefix)));
      && (reply.Reply? && reply.code == StatusOK && reply.body.Parsed? ==>
            PlayerIdHandler(r, u).response == Response(StatusOK, JsonType, PlayerJson(reply.body.value)))
      && (reply.Reply? && reply.code != StatusOK ==>
            PlayerIdHandler(r, u).response ==
              HttpError(FetchFailedPrefix + StatusPrefix + reply.status, StatusInternalServerError))
  {
  }

  /** The server appends the id to the upstream URL unescaped, where the
      command-line tool query-escapes it: the two URLs agree exactly when
      the id consists of unreserved characters only. */
  lemma IdUrlMatchesCliIffUnreserved(id: string)
    ensures IdUrl(id) == Cli.PlayerIdUrl(id) <==>
      forall i :: 0 <= i < |id| ==> QueryEscape.Unreserved(id[i])
  {
    QueryEscape.EscapeIdentityIff(id);
    if IdUrl(id) == Cli.PlayerIdUrl(id) {
      assert IdUrl(id)[|PlayerIdBase|..] == id;
      assert Cli.PlayerIdUrl(id)[|PlayerIdBase|..] == QueryEscape.Escape(id);
    }
  }
}

=== FILE: text.dfy ===
/** String helpers the gateway takes from Go's `strings` and `fmt` packages:
    ASCII lower-casing, substring search, prefix trimming and `%d`. */
module Text {

  predicate IsUpper(c: char) { 'A' <= c <= 'Z' }

  predicate IsDigit(c: char) { '0' <= c <= '9' }

  /** Lower-cases one ASCII letter; every other character is kept. */
  function LowerChar(c: char): (d: char)
    ensures !IsUpper(d)
    ensures IsUpper(c) ==> d as int == c as int + 32
    ensures !IsUpper(c) ==> d == c
  {
    if IsUpper(c) then (c as int + 32) as char else c
  }

  /** `strings.ToLower`, restricted to ASCII letters. */
  function Lower(s: string): (r: string)
    ensures |r| == |s|
    ensures forall i :: 0 <= i < |s| ==> r[i] == LowerChar(s[i])
  {
    if |s| == 0 then [] else [LowerChar(s[0])] + Lower(s[1..])
  }

  /** Two characters that are the same letter in either case. */
  predicate SameIgnoringCase(c: char, d: char)
  {
    || c == d
    || (IsUpper(c) && d as int == c as int + 32)
    || (IsUpper(d) && c as int == d as int + 32)
  }

  /** Two strings that differ at most in the ASCII case of their letters. */
  ghost predicate CaseVariants(a: string, b: string)
  {
    |a| == |b| && forall i :: 0 <= i < |a| ==> SameIgnoringCase(a[i], b[i])
  }

  /** Case variants lower-case to the same string. */
  lemma CaseVariantsLowerEqual(a: string, b: string)
    requires CaseVariants(a, b)
    ensures Lower(a) == Lower(b)
  {
    forall i | 0 <= i < |a|
      ensures Lower(a)[i] == Lower(b)[i]
    {
      assert SameIgnoringCase(a[i], b[i]);
    }
  }

  predicate IsPrefix(p: string, s: string)
  {
    |p| <= |s| && s[..|p|] == p
  }

  ghost predicate OccursAt(s: string, sub: string, i: int)
  {
    0 <= i && i + |sub| <= |s| && s[i..i + |sub|] == sub
  }

  /** `strings.Contains`: `sub` occurs somewhere in `s`. The empty string
      occurs in every string. */
  function Contains(s: string, sub: string): (b: bool)
    ensures b <==> exists i :: OccursAt(s, sub, i)
    decreases |s|
  {
    if IsPrefix(sub, s) then
      assert OccursAt(s, sub, 0);
      true
    else if |s| == 0 then
      false
    else
      var b := Contains(s[1..], sub);
      assert b ==> exists i :: OccursAt(s, sub, i) by {
        if b {
          var j :| OccursAt(s[1..], sub, j);
          assert s[1..][j..j + |sub|] == s[j + 1..j + 1 + |sub|];
          assert OccursAt(s, sub, j + 1);
        }
      }
      assert (exists i :: OccursAt(s, sub, i)) ==> b by {
        if exists i :: OccursAt(s, sub, i) {
          var i :| OccursAt(s, sub, i);
          assert i != 0;
          assert s[1..][i - 1..i - 1 + |sub|] == s[i..i + |sub|];
          assert OccursAt(s[1..], sub, i - 1);
        }
      }
      b
  }

  /** A string ends with, and so contains, whatever was appended to it. */
  lemma ContainsAppended(a: string, b: string)
    ensures Contains(a + b, b)
  {
    assert (a + b)[|a|..|a| + |b|] == b;
    assert OccursAt(a + b, b, |a|);
  }

  /** `strings.TrimPrefix`: drops `prefix` once when `s` starts with it. */
  function TrimPrefix(s: string, prefix: string): (r: string)
    ensures IsPrefix(prefix, s) ==> prefix + r == s
    ensures !IsPrefix(prefix, s) ==> r == s
  {
    if IsPrefix(prefix, s) then s[|prefix|..] else s
  }

  /** TrimPrefix yields the empty string exactly for the empty string and
      the prefix itself. */
  lemma TrimPrefixEmpty(s: string, prefix: string)
    requires |prefix| > 0
    ensures TrimPrefix(s, prefix) == "" <==> s == "" || s == prefix
  {
    if s == prefix {
      assert IsPrefix(prefix, s);
    }
  }

  // ---------------------------------------------------------------------
  // Decimal formatting (`%d`) and reading the number back.

  function DigitChar(d: nat): char
    requires d < 10
  {
    ('0' as int + d) as char
  }

  /** The decimal digits of `n`, most significant first, no leading zero. */
  function Digits(n: nat): (r: string)
    ensures |r| > 0
    ensures forall i :: 0 <= i < |r| ==> IsDigit(r[i])
    ensures r[0] == '0' ==> n == 0
  {
    if n < 10 then [DigitChar(n)] else Digits(n / 10) + [DigitChar(n % 10)]
  }

  /** Go's `%d` for an `int`: a minus sign, then the digits of the magnitude. */
  function FormatInt(n: int): (r: string)
    ensures |r| > 0
    ensures n < 0 <==> r[0] == '-'
  {
    if n < 0 then "-" + Digits(-n) else Digits(n)
  }

  /** The value of a string of decimal digits. */
  function DigitsValue(s: string): nat
    requires forall i :: 0 <= i < |s| ==> IsDigit(s[i])
  {
    if |s| == 0 then 0
    else
      assert IsDigit(s[|s| - 1]);
      DigitsValue(s[..|s| - 1]) * 10 + (s[|s| - 1] as int - '0' as int)
  }

  /** The number of leading decimal digits of `s`. */
  function DigitRun(s: string): (k: nat)
    ensures k <= |s|
    ensures forall i :: 0 <= i < k ==> IsDigit(s[i])
    ensures k < |s| ==> !IsDigit(s[k])
  {
    if |s| == 0 || !IsDigit(s[0]) then 0 else 1 + DigitRun(s[1..])
  }

  /** Reads an optionally negative decimal number off the front of `s`,
      returning it with the text after it. */
  function ReadInt(s: string): (int, string)
  {
    if |s| > 0 && s[0] == '-' then
      var k := DigitRun(s[1..]);
      (-(DigitsValue(s[1..][..k]) as int), s[1..][k..])
    else
      var k := DigitRun(s);
      (DigitsValue(s[..k]), s[k..])
  }

  /** Text that cannot be read as continuing a number. */
  predicate StartsWithNonDigit(s: string)
  {
    |s| == 0 || !IsDigit(s[0])
  }

  lemma {:induction false} DigitsValueOfDigits(n: nat)
    ensures DigitsValue(Digits(n)) == n
  {
    if n >= 10 {
      var d := Digits(n);
      assert d[..|d| - 1] == Digits(n / 10);
      DigitsValueOfDigits(n / 10);
    }
  }

  lemma {:induction false} DigitRunOver(d: string, rest: string)
    requires forall i :: 0 <= i < |d| ==> IsDigit(d[i])
    requires StartsWithNonDigit(rest)
    ensures DigitRun(d + rest) == |d|
  {
    if |d| > 0 {
      assert (d + rest)[1..] == d[1..] + rest;
      DigitRunOver(d[1..], rest);
    }
  }

  /** The digits of a number followed by non-digit text split back into
      that number and that text. */
  lemma ReadDigits(m: nat, rest: string)
    requires StartsWithNonDigit(rest)
    ensures DigitRun(Digits(m) + rest) == |Digits(m)|
    ensures DigitsValue((Digits(m) + rest)[..|Digits(m)|]) == m
    ensures (Digits(m) + rest)[|Digits(m)|..] == rest
  {
    var d := Digits(m);
    DigitRunOver(d, rest);
    DigitsValueOfDigits(m);
    assert (d + rest)[..|d|] == d;
  }

  lemma ReadNonNegative(n: nat, rest: string)
    requires StartsWithNonDigit(rest)
    ensures ReadInt(Digits(n) + rest) == (n, rest)
  {
    var s := Digits(n) + rest;
    ReadDigits(n, rest);
    assert s[0] == Digits(n)[0];
    assert IsDigit(s[0]);
  }

  lemma ReadNegative(m: nat, rest: string)
    requires StartsWithNonDigit(rest)
    ensures ReadInt("-" + Digits(m) + rest) == (-(m as int), rest)
  {
    var s := "-" + Digits(m) + rest;
    ReadDigits(m, rest);
    assert s[0] == '-';
    assert s[1..] == Digits(m) + rest;
  }

  /** `%d` is read back exactly by ReadInt, whatever non-digit text follows. */
  lemma ReadFormatInt(n: int, rest: string)
    requires StartsWithNonDigit(rest)
    ensures ReadInt(FormatInt(n) + rest) == (n, rest)
  {
    if n < 0 {
      ReadNegative(-n, rest);
    } else {
      ReadNonNegative(n, rest);
    }
  }

  /** Distinct numbers format to distinct text. */
  lemma FormatIntInjective(m: int, n: int)
    requires FormatInt(m) == FormatInt(n)
    ensures m == n
  {
    ReadFormatInt(m, "");
    ReadFormatInt(n, "");
    assert FormatInt(m) + "" == FormatInt(m);
    assert FormatInt(n) + "" == FormatInt(n);
  }
}

=== FILE: types.dfy ===
/** The entities the gateway decodes from the upstream API and passes on:
    teams, players and the `{ "data": ... }` envelopes the upstream
    statistics API wraps them in. The command-line tool and the HTTP server
    declare identical copies of `Team`, `Player` and the two player
    envelopes; only the command-line tool has `TeamResponse`. The model
    declares each record once. */
module Types {

  /** A team as the upstream API reports it (JSON `id`, `full_name`). */
  datatype Team = Team(id: int, name: string)

  /** A player, with the team embedded by value. */
  datatype Player = Player(
    id: int,
    first: string,
    last: string,
    full: string,
    position: string,
    height: string,
    weight: string,
    jersey: string,
    college: string,
    draftYear: int,
    draftRound: int,
    draftNumber: int,
    team: Team)

  /** List envelope of the team endpoint. */
  datatype TeamResponse = TeamResponse(data: seq<Team>)

  /** List envelope of the player name-search endpoint. */
  datatype PlayerResponse = PlayerResponse(data: seq<Player>)

  /** Single-object envelope of the player-by-id endpoint. */
  datatype PlayerIdResponse = PlayerIdResponse(data: Player)

  /** A Go `(value, error)` pair: either the value or the error's message. */
  datatype Result<+T> = Ok(value: T) | Err(message: string)
}

=== FILE: upstream.dfy ===
/** The upstream fetch (`fetchAPI`, identical in both front ends): one GET to
    the statistics API, a status gate, then a JSON decode into the envelope
    the caller expects. Transport and JSON decoding are not modelled: what
    the upstream did is given as an `Upstream<T>` value. */
module Upstream {
  import opened Types
  import Text
  import QueryEscape

  /** What decoding the response body into the expected envelope gives. */
  datatype Body<T> = Parsed(value: T) | Malformed(reason: string)

  /** What one upstream request gives: a transport failure (request
      construction or sending), or a response with its numeric status code,
      its status line text such as "404 Not Found", and its body. */
  datatype Upstream<T> =
    | TransportFailure(reason: string)
    | Reply(code: int, status: string, body: Body<T>)

  /** The upstream endpoints both front ends call. */
  const TeamsUrl: string := "https://api.balldontlie.io/v1/teams"
  const PlayerSearchBase: string := "https://api.balldontlie.io/v1/players?search="
  const PlayerIdBase: string := "https://api.balldontlie.io/v1/players/"

  /** The upstream URL of a name search, built the same way by both front
      ends: the term is query-escaped, so nothing in it can end the `search`
      value or add a parameter or fragment. */
  function SearchUrl(term: string): (url: string)
    ensures Text.IsPrefix(PlayerSearchBase, url)
    ensures forall i :: |PlayerSearchBase| <= i < |url| ==> QueryEscape.Escaped(url[i])
  {
    PlayerSearchBase + QueryEscape.Escape(term)
  }

  /** `http.StatusOK`. */
  const StatusOK: int := 200

  const StatusPrefix: string := "API request failed with status: "

  /** `fetchAPI`: a transport failure is passed through, any status other
      than 200 becomes an error naming the status text, and only a 200
      response has its body decoded. */
  function Fetch<T>(u: Upstream<T>): (r: Result<T>)
    ensures r.Ok? <==> u.Reply? && u.code == StatusOK && u.body.Parsed?
    ensures r.Ok? ==> r.value == u.body.value
    ensures u.TransportFailure? ==> r == Err(u.reason)
    ensures u.Reply? && u.code != StatusOK ==> r == Err(StatusPrefix + u.status)
    ensures u.Reply? && u.code == StatusOK && u.body.Malformed? ==> r == Err(u.body.reason)
  {
    match u
    case TransportFailure(reason) => Err(reason)
    case Reply(code, status, body) =>
      if code != StatusOK then Err(StatusPrefix + status)
      else
        match body
        case Parsed(v) => Ok(v)
        case Malformed(reason) => Err(reason)
  }

  /** A response whose status is not 200 is never decoded: its body, well
      formed or not, has no influence on the outcome. */
  lemma NonOkNeverDecodes<T>(code: int, status: string, b1: Body<T>, b2: Body<T>)
    requires code != StatusOK
    ensures Fetch(Reply(code, status, b1)) == Fetch(Reply(code, status, b2))
    ensures Fetch(Reply(code, status, b1)).Err?
  {
  }

  /** The error for a rejected status carries the upstream status text. */
  lemma StatusErrorNamesStatus<T>(code: int, status: string, b: Body<T>)
    requires code != StatusOK
    ensures Fetch(Reply(code, status, b)).Err?
    ensures Text.Contains(Fetch(Reply(code, status, b)).message, status)
  {
    Text.ContainsAppended(StatusPrefix, status);
  }
}
